=== FILE: README.md ===
# Inventory catalog model

A Dafny model of the catalog logic of a personal-belongings inventory app.
The app has two screens, one web and one React Native. Both define handlers
that turn an AI model's photo detections into inventory records; the native
screen's add flow is written but never wired to its UI. Both keep an
in-memory catalog that the user can search, filter and delete from, and both
write it to a local store. This project models that logic as pure functions over
immutable records, plus four methods, two of them with loops. It proves what each
operation promises.

Modules, one per source file or concern:

- `Wrappers` (`wrappers.dfy`): `Option` for optional fields and `undefined`,
  and `Attempt` for an awaited call that may reject.
- `Text` (`text.dfy`): ASCII `toLowerCase`, `includes` and `join`.
- `Types` (`types.dfy`): the `InventoryItem` record (`Item`), the `Category`
  enum, `ChatMessage` and its role, and the loosely typed `Detection`. Also
  the JavaScript `||` on optional strings (`OrElse`).
- `Catalog` (`catalog.dfy`): `Array.prototype.filter` (`Keep`) and the
  delete-by-id that both screens share.
- `WebApp` (`web_app.dfy`, for `App.tsx`): the mapping, the duplicate flagging
  and unshift merge, the delete and the search filter.
- `NativeApp` (`native_app.dfy`, for `App.native.tsx`): the mapping into a
  pending batch, the save of that batch, the purge and the name filter.
- `IndexedDbStore` (`indexeddb_store.dfy`): the IndexedDB object store keyed
  by `id` (store `inventory` of database `OmniVaultDB`, version 1).
- `NativeStore` (`native_store.dfy`): the AsyncStorage slot under the single
  key `@ownly_inventory_data`.
- `Gemini` (`gemini.dfy`): the pure helpers of the AI service. These are the
  parse-or-empty fallback, the inventory summary, the chat context and the
  reply fallbacks.
- `Variants` (`variants.dfy`): lemmas that compare the two screens.

Fresh ids (`crypto.randomUUID`, `Math.random`) and dates (`new Date()`) are
parameters. They are functions from the detection's index to a string,
because the source calls each once per detection, in map order. Every
outcome that I/O decides becomes a parameter:

- a rejected model call;
- a failed storage call;
- an aborted transaction;
- text that does not parse.

Notes on the code:

- No category normalisation happens. A non-empty category string, even one
  outside the enum, reaches the record unchanged (`Variants.UnknownCategoryPassesThrough`).
- No resizing or cropping happens. Every record of a batch carries the whole photo.
- The web duplicate test compares lower-cased names and exact categories, not
  names and brands. It runs against the catalog and the earlier records of
  the same batch.
- The native screen flags no duplicates at all.
- The web merge puts the batch first in reverse order: reverse(batch) ++ catalog.
  The native save keeps the batch order: batch ++ catalog.
- The web mapper has no price default: `price` is copied, possibly absent.
  The native mapper defaults the price to 0.
- An empty detection list on the native screen still opens review, with an
  empty batch.

## Model

| member | source | states |
|---|---|---|
| `Types.CategoryOf` | types.ts:26-33 | A string names at most one enum member. The lookup returns it exactly when the string is that member's value. |
| `Types.CategoryValuesDistinct` | types.ts:26-33 | The enum has exactly six members with six distinct values. Every member is listed. The filter sentinel 'All' is not a member. |
| `Types.OrElse` | App.tsx:64-67 | The JavaScript `o || fallback` on an optional string: the value when it is present and non-empty, the fallback otherwise (also App.native.tsx:117-122). |
| `Types.RoleOf` | types.ts:21-24 | A chat role literal is exactly 'user' or 'assistant'. Each literal names one role. |
| `Text.Lower` | App.tsx:146-147 | Lower-casing keeps the length and folds each character on its own. |
| `Text.LowerIdempotent` | App.tsx:77 | Lower-casing twice equals lower-casing once. No upper-case ASCII letter survives it. |
| `Text.ContainsIffOccurs` | App.tsx:146-147 | `includes` holds exactly when the needle occurs at some position of the haystack (both directions). |
| `Text.Contains` | App.tsx:146-147 | `includes`: the empty needle is always found, a prefix is found, and a found needle is no longer than the haystack. `Text.ContainsIffOccurs` gives the full characterisation. |
| `Text.Join` | services/geminiService.ts:55-57 | `join`: no parts give the empty string, one part gives that part, and more parts start with the first part and the separator. `Text.JoinAppend` gives the rest. |
| `Text.JoinAppend` | services/geminiService.ts:55-57 | Joining two non-empty lists equals joining each and putting the separator between them. |
| `Catalog.Keep` | App.tsx:145-150 | A filter result is no longer than its input and is an order-preserving subsequence of it. |
| `Catalog.KeepContents` | App.tsx:145-150 | A filter keeps exactly the elements that pass. Each kept element keeps its full multiplicity, and a dropped element is absent. |
| `Catalog.KeepAppend` | App.tsx:145-150 | Filtering a concatenation filters each part in place, so the relative order is preserved. |
| `Catalog.KeepAll` | App.tsx:145-150 | A filter that every element passes returns the list unchanged. |
| `Catalog.RemoveId` | App.tsx:141 | Delete keeps exactly the records with a different id, with their multiplicities and order. The id is gone afterwards. A missing id changes nothing. |
| `WebApp.MapDetection` | App.tsx:62-71 | A web record takes the fresh id and date. Falsy fields get their defaults: 'Unknown Item', '', 'Other' and 'Main Storage'. A non-empty category passes through verbatim. The price is copied. The image is the photo. `isDuplicate` and every other optional field are unset. |
| `WebApp.MapDetections` | App.tsx:62-71 | The web mapper gives one record per detection, in order, and the k-th record uses the k-th fresh id and date. Every price is copied as is, possibly absent, and no brand is set. |
| `WebApp.HasMatch` | App.tsx:76-79 | The `.some` test: a record in the list always matches itself, and an empty list matches nothing. `WebApp.HasMatchByKeys` shows it depends only on the identity keys. |
| `WebApp.Flag` | App.tsx:76-80 | A record with a match in the list is marked `isDuplicate: true`. A record without one is left exactly as it was, not set to false. Only `isDuplicate` can change. |
| `WebApp.HasMatchByKeys` | App.tsx:76-79 | The duplicate test depends only on the set of (lower-cased name, category) pairs in the list. |
| `WebApp.MergeBatch` | App.tsx:74-84 | The merged list has length catalog + batch and ends with the untouched catalog. The k-th batch record sits at position batch-1-k. It is flagged exactly when the catalog or an earlier batch record has the same identity. |
| `WebApp.MergeStep` | App.tsx:75-82 | Within the loop, the running list answers the duplicate test as the catalog plus the earlier batch records would. Inserting the flagged record keeps the loop invariant. |
| `WebApp.HandleFileUpload` | App.tsx:58-87 | A rejected analysis leaves the catalog unchanged and the spinner on. Otherwise the batch is merged in front of the untouched catalog. Each new record's `isDuplicate` is true if it has a match and unset if not, never false. |
| `WebApp.DeleteItem` | App.tsx:140-143 | Delete keeps exactly the records with another id, each as often as before and in order, and closes the detail view. |
| `WebApp.FilteredItems` | App.tsx:145-150 | A record is shown exactly when the query (lower-cased) occurs in its lower-cased name or description, and the selection is 'All' or its category. A description match alone is enough under 'All'. Each shown record appears as often as in the catalog, and the shown records keep catalog order. |
| `NativeApp.MapDetection` | App.native.tsx:115-125 | A native record takes the fresh id and date. The defaults are 'Object', brand '', description '', 'Other' and 'Sector A'. A non-empty category passes through verbatim. The price is present and equals the detected price, or 0 when absent. `isDuplicate` is unset. |
| `NativeApp.MapDetections` | App.native.tsx:115-125 | The native mapper gives one pending record per detection, in order, with the k-th fresh id and date. Every record has a price and a brand, and none has `isDuplicate` set. |
| `NativeApp.ProcessInventoryPhoto` | App.native.tsx:110-135 | A rejected analysis changes nothing but the spinner: the catalog and batch stay, and review is not entered. A resolved one, even an empty one, opens review on exactly the mapped batch. The catalog and the selection are never touched. |
| `NativeApp.SaveBatch` | App.native.tsx:151-158 | The catalog becomes batch ++ catalog, with both orders kept. A successful write makes a load return exactly that list, and a failed write leaves the store as it was. The batch is emptied and review closes. No other screen field changes. |
| `NativeApp.PurgeSelected` | App.native.tsx:295-302 | Purge keeps exactly the records with an id other than the selected one, each as often as before and in order. A successful write makes a load return that list. The selection is cleared, and no other screen field changes. |
| `NativeApp.FilteredItems` | App.native.tsx:177-180 | A record is shown exactly when the query occurs in its lower-cased name and the category test passes. Every shown record matches by name; the description is not searched. Each shown record appears as often as in the catalog, in catalog order. |
| `IndexedDbStore.PutAll` | services/storageService.ts:33-35 | The puts add exactly the ids of the list. Untouched keys keep their records. For each id, the last record put wins. |
| `IndexedDbStore.PutStep` | services/storageService.ts:33-35 | One more put keeps the put properties and the id keying of the store. |
| `IndexedDbStore.SaveInventory` | services/storageService.ts:22-40 | After a commit, the keys are exactly the ids of the list, each holding the last record with that id, and nothing earlier survives. A failed open rejects, and an aborted transaction never settles; both leave the store unchanged. |
| `IndexedDbStore.SaveIdempotent` | services/storageService.ts:27-35 | A committed save does not depend on the previous contents. Saving the same list twice equals saving it once. |
| `IndexedDbStore.StoredAreLastOfId` | services/storageService.ts:33-35 | Every stored record is the last record of the saved list with its id. |
| `IndexedDbStore.LoadInventory` | services/storageService.ts:42-57 | A failed open or request yields `[]`. A successful load returns every stored record exactly once, with each id once, and the count equals the number of keys. |
| `IndexedDbStore.LoadStep` | services/storageService.ts:47 | Reading one more stored record keeps the read records distinct, stored, and covering the keys read so far. |
| `IndexedDbStore.SaveThenLoad` | services/storageService.ts:22-57 | Save then load returns exactly the last record of each id in the list. With distinct ids, it returns exactly the saved records, as many as were saved. |
| `NativeStore.SaveInventory` | services/storageService.native.ts:7-14 | A successful save makes a load return exactly the saved list. A failed one is swallowed and leaves the slot unchanged. |
| `NativeStore.LoadInventory` | services/storageService.native.ts:16-24 | An absent key, a failed read or unparsable text loads as `[]`. A successful read of a readable slot loads exactly the stored list. |
| `NativeStore.ClearAllData` | services/storageService.native.ts:26-32 | After a successful clear, every load returns `[]`. A failed clear is swallowed. |
| `NativeStore.SaveReplaces` | services/storageService.native.ts:7-14 | A save is a full replace under the one key: after two saves, the second list loads. |
| `NativeStore.FailedSaveInvisible` | services/storageService.native.ts:8-13 | A failed save is invisible to every later load. |
| `Gemini.DetectionsFromText` | services/geminiService.ts:45-50 | Given a parser that reads "[]" as the empty array, as `JSON.parse` does: a missing or empty reply text, or text that fails to parse, gives `[]`. Otherwise the result is the parsed array, and a non-empty result is always a successful parse. |
| `Gemini.MissingTextReadsAsEmptyArray` | services/geminiService.ts:46 | A missing or empty reply text gives the same result as the text "[]". Two parsers that agree on the reply text give the same detections. |
| `Gemini.AnalyzeStoragePhoto` | services/geminiService.ts:7-51 | Only a rejected model call makes the analysis reject. A delivered reply gives the parse-or-empty result of its text, so a reply without text gives `[]`. |
| `Gemini.Render` | services/geminiService.ts:56 | One entry is `name (category) in location`: the name first, the category in parentheses after it, the location last. The two separators are exactly ` (` and `) in `. |
| `Gemini.InventorySummary` | services/geminiService.ts:55-57 | An empty catalog gives the empty summary. One item gives `name (category) in location`. |
| `Gemini.SummaryAppend` | services/geminiService.ts:55-57 | The summary follows catalog order: the summary of a concatenation is the two summaries joined by ', '. |
| `Gemini.InventoryContext` | services/geminiService.ts:83-88 | The chat context has one entry per item, in catalog order. Each entry carries only name, location, category and date added. |
| `Gemini.ContextIgnoresOtherFields` | services/geminiService.ts:83-88 | Two catalogs that agree item by item on those four fields give the same context. |
| `Gemini.ReplyOr` | services/geminiService.ts:78 | A shown reply is never empty. It is the reply text when that is non-empty and the fallback otherwise. A rejected call propagates. |
| `Gemini.ShoppingAdvice` | services/geminiService.ts:78 | Advice is never empty. A rejected call propagates, a non-empty reply text is passed through, and a missing or empty reply gives the fixed advice fallback. |
| `Gemini.ChatAnswer` | services/geminiService.ts:95 | A chat answer is never empty. A rejected call propagates, a non-empty reply text is passed through, and a missing or empty reply gives the fixed chat fallback. |
| `Variants.EmptyQueryShowsAll` | App.tsx:145-150 | On both screens, an empty query under 'All' shows the whole catalog. |
| `Variants.NativeFilterWithinWeb` | App.native.tsx:177-180 | For the same query and category, every record the native filter shows is also shown by the web filter. |
| `Variants.DescriptionOnlyMatch` | App.tsx:146-147 | For every catalog, query and selection: a record whose description matches, whose name does not, and which passes the category test is shown on the web and hidden on native. |
| `Variants.DescriptionOnlyExample` | App.native.tsx:177-180 | An example of such a record exists: 'Box' described as 'drill', searched for 'dr', is shown on the web only. |
| `Variants.QueryCaseInsensitive` | App.tsx:146-147 | On both screens, searching for the lower-cased query shows the same records, in the same order, as the query itself. |
| `Variants.EstimatedPriceNeverRead` | services/geminiService.ts:36 | For every reply that follows the response schema, the web record has no price and the native record has price 0. The estimated price is ignored. |
| `Variants.UnknownCategoryPassesThrough` | App.tsx:66 | A category outside the enum ('Kitchen') is stored verbatim by both mappers. |
| `Variants.MappersAgreeOnSharedFields` | App.native.tsx:115-125 | The two mappers differ only in name, location, brand and price. The names agree exactly when a name was given, and likewise the locations. |

## Left out

- `IndexedDbStore.LoadInventory` does not promise an order. `getAll` returns records in key order, and the model promises only the contents, each id once.
- Strings are sequences of Unicode characters, while JavaScript's `length`, indexing and `includes` work on UTF-16 code units. For characters outside the Basic Multilingual Plane the lengths differ, but `includes` still agrees on well-formed strings.
- `Text.Lower` folds only ASCII letters. JavaScript's `toLowerCase` also folds non-ASCII letters; Unicode case mapping is not modelled.
- `NativeStore.LoadInventory` assumes JSON round-trips records. Text that parses to something other than an array (the stored text `null`, say) would be returned as is; the model folds it into "unreadable". No save produces such text.
- Numbers are modelled as `real`, so NaN is not represented. `d.price || 0` also maps NaN to 0, and JSON turns NaN into `null`.
- Image picking, camera permissions, `FileReader` and base64 splitting are I/O. The photo reaches the model as a string.
- The Gemini network calls, prompt text, model choice and response schema are foreign calls. Their settled reply is a parameter. The advice and chat answers are kept as the `text || fallback` step after the reply settles.
- `Gemini.DetectionsFromText` takes `JSON.parse` as a parameter that yields only a well-typed array of detections or a throw. This follows the response schema. A reply that parses to a non-array, or to an array with a `null` element, is not represented. On such a reply `detectedItems.map` throws at App.tsx:62 and the web spinner stays on. On native, `detected.map` throws at App.native.tsx:115; the error is caught at App.native.tsx:130-131 and review is not entered. The model can only give `[]` for such a reply, and on native `[]` enters review. A detection whose `name` is a non-empty non-string (a number, say) is not represented either. Both `||` defaults (App.tsx:64, App.native.tsx:117) pass it through, so neither `map` throws. On the web, `ni.name.toLowerCase()` at App.tsx:77 then throws when the running list is non-empty; otherwise the record enters the catalog and the filter throws at App.tsx:146 on the next render. On native the mapping succeeds and review is entered with a numeric name.
- `JSON.parse` is a parameter. `JSON.stringify` of the chat context is not modelled; the context is kept as the projected list.
- Speech recognition (App.tsx:126-138) is browser API wiring.
- React rendering, styling, modals, view modes, chat message lists and the advisor screens are UI. Of the screen state, only the fields these handlers set are kept: the catalog, the selection, the spinner, the add and review flags, the pending batch and the review photo.
- Id and date generation are parameters. Neither generator is unique, so no uniqueness of ids is claimed.
- The web effects (App.tsx:44-50) are not modelled. They write every new catalog through `saveInventory`. Line 45 calls `loadInventory()` without `await` and hands the resulting Promise to `setItems`. The next render evaluates `items.filter` (App.tsx:145) on that Promise and throws, so the web screen as written fails right after mount, before any handler modelled here can run. The handlers are modelled as if `items` held the loaded list. Separately, on mount the save effect (App.tsx:48-50) runs with the initial `[]` and clears the store; whether that clear lands before the load's read depends on transaction scheduling.
- App.native.tsx renders no add or review UI. Nothing calls `handlePickImage` (App.native.tsx:84) or `saveBatch` (App.native.tsx:151), and the rendered tree (App.native.tsx:199-329) reads none of `isAdding`, `isReviewing` or `pendingItems`. The + button at App.native.tsx:266 only sets `isAdding`. So `NativeApp.ProcessInventoryPhoto` and `NativeApp.SaveBatch` model handlers as written that no user action reaches. The reachable native catalog operations are the mount load, the filter and the purge.
- A `put` that throws mid-save would commit a partial store. It cannot happen for these records, whose fields are all strings, numbers and booleans.
- Overlapping uploads, cancellation and the order in which concurrent saves land are not modelled. Each operation is one atomic step.

=== FILE: catalog.dfy ===
/** List operations both screens apply to the in-memory catalog:
    `Array.prototype.filter` and the delete-by-id built on it. */
module Catalog {
  import opened Types

  /** `a` can be obtained from `b` by dropping elements, keeping the order. */
  predicate IsSubsequence<T(==)>(a: seq<T>, b: seq<T>)
    decreases |b|
  {
    a == [] ||
    (b != [] && ((a[0] == b[0] && IsSubsequence(a[1..], b[1..])) || IsSubsequence(a, b[1..])))
  }

  /** `xs.filter(p)`: the elements satisfying `p`, each kept as often as it
      occurs, in their original order. */
  function Keep<T(==,!new)>(xs: seq<T>, p: T -> bool): (r: seq<T>)
    ensures |r| <= |xs|
    ensures IsSubsequence(r, xs)
  {
    if xs == [] then []
    else
      var rest := Keep(xs[1..], p);
      assert xs == [xs[0]] + xs[1..];
      if p(xs[0]) then [xs[0]] + rest else rest
  }

  /** The filter keeps exactly the elements satisfying `p`, each with its
      full multiplicity. */
  lemma {:induction false} KeepContents<T(!new)>(xs: seq<T>, p: T -> bool)
    ensures forall x :: x in Keep(xs, p) <==> x in xs && p(x)
    ensures forall x :: multiset(Keep(xs, p))[x] == if p(x) then multiset(xs)[x] else 0
  {
    if xs != [] {
      KeepContents(xs[1..], p);
      assert xs == [xs[0]] + xs[1..];
      assert multiset(xs) == multiset{xs[0]} + multiset(xs[1..]);
    }
  }

  /** Two tests that agree on every element of the list keep the same
      elements. */
  lemma {:induction false} KeepCongruent<T(!new)>(xs: seq<T>, p: T -> bool, q: T -> bool)
    requires forall x :: x in xs ==> p(x) == q(x)
    ensures Keep(xs, p) == Keep(xs, q)
  {
    if xs != [] {
      KeepCongruent(xs[1..], p, q);
    }
  }

  /** Filtering a concatenation filters each part: the kept elements of an
      earlier part come before those of a later one. */
  lemma {:induction false} KeepAppend<T(!new)>(a: seq<T>, b: seq<T>, p: T -> bool)
    ensures Keep(a + b, p) == Keep(a, p) + Keep(b, p)
  {
    if a == [] {
      assert a + b == b;
    } else {
      var ab := a + b;
      assert ab[0] == a[0] && ab[1..] == a[1..] + b;
      KeepAppend(a[1..], b, p);
      if p(a[0]) {
        calc {
          Keep(ab, p);
          [a[0]] + Keep(a[1..] + b, p);
          [a[0]] + (Keep(a[1..], p) + Keep(b, p));
          ([a[0]] + Keep(a[1..], p)) + Keep(b, p);
          Keep(a, p) + Keep(b, p);
        }
      } else {
        calc {
          Keep(ab, p);
          Keep(a[1..] + b, p);
          Keep(a[1..], p) + Keep(b, p);
          Keep(a, p) + Keep(b, p);
        }
      }
    }
  }

  /** A filter that every element passes returns the list unchanged. */
  lemma {:induction false} KeepAll<T(!new)>(xs: seq<T>, p: T -> bool)
    requires forall x :: x in xs ==> p(x)
    ensures Keep(xs, p) == xs
  {
    if xs != [] {
      assert xs == [xs[0]] + xs[1..];
      KeepAll(xs[1..], p);
    }
  }

  /** `items.filter(i => i.id !== id)`: the delete both screens perform. */
  function RemoveId(items: seq<Item>, id: string): (r: seq<Item>)
    ensures forall x :: x in r <==> x in items && x.id != id
    ensures id !in Ids(r)
    ensures forall x: Item :: x.id != id ==> multiset(r)[x] == multiset(items)[x]
    ensures IsSubsequence(r, items)
    ensures id !in Ids(items) ==> r == items
  {
    var r := Keep(items, (x: Item) => x.id != id);
    KeepContents(items, (x: Item) => x.id != id);
    if id !in Ids(items) then
      KeepAll(items, (x: Item) => x.id != id);
      r
    else
      r
  }
}

=== FILE: gemini.dfy ===
/** The pure parts of the AI service: turning the model's reply text into
    detections, and the two renderings of the catalog sent along with a
    question. The network call itself is a parameter: its settled reply. */
module Gemini {
  import opened Wrappers
  import opened Text
  import opened Types

  /** The answer shown when the shopping-advice reply has no text. */
  const AdviceFallback: string := "I'm not sure, but checking your inventory is always a good idea!"

  /** The answer shown when the chat reply has no text. */
  const ChatFallback: string := "I couldn't find an answer to that."

  /** `JSON.parse(text || "[]")` with a failed parse caught as `[]`.
      `parse` is `JSON.parse` on one string: `None` when it throws. Like
      `JSON.parse`, it reads the literal "[]" as the empty array. */
  function DetectionsFromText(text: Option<string>, parse: string -> Option<seq<Detection>>): (r: seq<Detection>)
    requires parse("[]") == Some([])
    ensures !Truthy(text) ==> r == []
    ensures Truthy(text) && parse(text.value).None? ==> r == []
    ensures Truthy(text) && parse(text.value).Some? ==> r == parse(text.value).value
    ensures r != [] ==> Truthy(text) && parse(text.value) == Some(r)
  {
    match parse(OrElse(text, "[]"))
    case Some(ds) => ds
    case None => []
  }

  /** A missing or empty reply text reads exactly like the text "[]", and
      the result depends only on what `parse` makes of the text. */
  lemma MissingTextReadsAsEmptyArray(text: Option<string>, parse: string -> Option<seq<Detection>>,
                                     parse2: string -> Option<seq<Detection>>)
    requires parse("[]") == Some([]) && parse2("[]") == Some([])
    ensures DetectionsFromText(text, parse) == DetectionsFromText(Some(OrElse(text, "[]")), parse)
    ensures Truthy(text) && parse(text.value) == parse2(text.value) ==>
              DetectionsFromText(text, parse) == DetectionsFromText(text, parse2)
  {
  }

  /** `analyzeStoragePhoto`: a rejected model call propagates; a delivered
      reply never makes the function throw. */
  function AnalyzeStoragePhoto(reply: Attempt<Option<string>>, parse: string -> Option<seq<Detection>>): (r: Attempt<seq<Detection>>)
    requires parse("[]") == Some([])
    ensures reply.Threw? <==> r.Threw?
    ensures reply.Done? && !Truthy(reply.value) ==> r == Done([])
    ensures reply.Done? ==> r == Done(DetectionsFromText(reply.value, parse))
  {
    match reply
    case Threw => Threw
    case Done(text) => Done(DetectionsFromText(text, parse))
  }

  /** One catalog entry as the shopping advisor sees it: the name first, the
      location last, and the category in parentheses between them. */
  function Render(i: Item): (r: string)
    ensures |r| == |i.name| + |i.category| + |i.storageLocation| + 7
    ensures IsPrefix(i.name + " (", r)
    ensures r[|i.name| + 2..|i.name| + 2 + |i.category|] == i.category
    ensures r[|i.name| + 2 + |i.category|..|r| - |i.storageLocation|] == ") in "
    ensures r[|r| - |i.storageLocation|..] == i.storageLocation
  {
    i.name + " (" + i.category + ") in " + i.storageLocation
  }

  /** `currentInventory.map(render).join(', ')`. */
  function InventorySummary(items: seq<Item>): (r: string)
    ensures items == [] ==> r == ""
    ensures |items| == 1 ==> r == Render(items[0])
  {
    Join(seq(|items|, k requires 0 <= k < |items| => Render(items[k])), ", ")
  }

  /** The summary follows catalog order: the summary of a concatenation is
      the two summaries separated by ", ". */
  lemma SummaryAppend(a: seq<Item>, b: seq<Item>)
    requires |a| > 0 && |b| > 0
    ensures InventorySummary(a + b) == InventorySummary(a) + ", " + InventorySummary(b)
  {
    var ra := seq(|a|, k requires 0 <= k < |a| => Render(a[k]));
    var rb := seq(|b|, k requires 0 <= k < |b| => Render(b[k]));
    var ab := a + b;
    var rab := seq(|ab|, k requires 0 <= k < |ab| => Render(ab[k]));
    assert rab == ra + rb;
    JoinAppend(ra, rb, ", ");
  }

  /** The projection of one item sent as chat context. */
  datatype ContextEntry = ContextEntry(name: string, location: string, cat: string, added: string)

  /** `inventory.map(i => ({name, location, cat, added}))`, before it is
      serialised. */
  function InventoryContext(items: seq<Item>): (r: seq<ContextEntry>)
    ensures |r| == |items|
    ensures forall k :: 0 <= k < |items| ==>
              r[k] == ContextEntry(items[k].name, items[k].storageLocation, items[k].category, items[k].dateAdded)
  {
    if items == [] then []
    else
      var i := items[0];
      [ContextEntry(i.name, i.storageLocation, i.category, i.dateAdded)] + InventoryContext(items[1..])
  }

  /** The chat context depends on nothing but the four projected fields:
      two catalogs that agree on them, item by item, give the same context. */
  lemma ContextIgnoresOtherFields(a: seq<Item>, b: seq<Item>)
    requires |a| == |b|
    requires forall k :: 0 <= k < |a| ==>
               a[k].name == b[k].name && a[k].storageLocation == b[k].storageLocation &&
               a[k].category == b[k].category && a[k].dateAdded == b[k].dateAdded
    ensures InventoryContext(a) == InventoryContext(b)
  {
  }

  /** The text a reply is shown as: the reply text, or `fallback` when it is
      missing or empty. A rejected call propagates. */
  function ReplyOr(reply: Attempt<Option<string>>, fallback: string): (r: Attempt<string>)
    requires fallback != ""
    ensures reply.Threw? <==> r.Threw?
    ensures r.Done? ==> r.value != ""
    ensures reply.Done? && Truthy(reply.value) ==> r.value == reply.value.value
    ensures reply.Done? && !Truthy(reply.value) ==> r.value == fallback
  {
    match reply
    case Threw => Threw
    case Done(text) => Done(OrElse(text, fallback))
  }

  /** `getShoppingAdvice` after the model call settles. */
  function ShoppingAdvice(reply: Attempt<Option<string>>): (r: Attempt<string>)
    ensures reply.Threw? <==> r.Threw?
    ensures r.Done? ==> r.value != ""
    ensures reply.Done? && Truthy(reply.value) ==> r == Done(reply.value.value)
    ensures reply == Done(None) || reply == Done(Some("")) ==> r == Done(AdviceFallback)
  {
    ReplyOr(reply, AdviceFallback)
  }

  /** `chatWithAssistant` after the model call settles. */
  function ChatAnswer(reply: Attempt<Option<string>>): (r: Attempt<string>)
    ensures reply.Threw? <==> r.Threw?
    ensures r.Done? ==> r.value != ""
    ensures reply.Done? && Truthy(reply.value) ==> r == Done(reply.value.value)
    ensures reply == Done(None) || reply == Done(Some("")) ==> r == Done(ChatFallback)
  {
    ReplyOr(reply, ChatFallback)
  }
}

=== FILE: indexeddb_store.dfy ===
/** The browser store of the web screen: one IndexedDB object store whose
    key path is `id`. Saving clears the store and puts every record in one
    read-write transaction; loading reads every record back. The store's
    contents are a map from id to record; the order `getAll` returns them
    in is not promised. */
module IndexedDbStore {
  import opened Types

  /** Every stored record sits under its own id, as the key path demands. */
  predicate WellKeyed(m: map<string, Item>) {
    forall k :: k in m ==> m[k].id == k
  }

  type Store = m: map<string, Item> | WellKeyed(m) witness map[]

  /** No later record of `xs` has the id of `xs[i]`. */
  predicate IsLastOfId(xs: seq<Item>, i: int)
    requires 0 <= i < |xs|
  {
    forall j :: i < j < |xs| ==> xs[j].id != xs[i].id
  }

  /** One put on top of the puts of `init` keeps all three properties of
      `PutAll` for `init + [last]`. */
  lemma PutStep(db: Store, rec: Store, init: seq<Item>, last: Item)
    requires rec.Keys == db.Keys + Ids(init)
    requires forall k :: k in db && k !in Ids(init) ==> rec[k] == db[k]
    requires forall i :: 0 <= i < |init| && IsLastOfId(init, i) ==> init[i].id in rec && rec[init[i].id] == init[i]
    ensures var xs := init + [last];
            var r := rec[last.id := last];
            && WellKeyed(r)
            && r.Keys == db.Keys + Ids(xs)
            && (forall k :: k in db && k !in Ids(xs) ==> r[k] == db[k])
            && (forall i :: 0 <= i < |xs| && IsLastOfId(xs, i) ==> xs[i].id in r && r[xs[i].id] == xs[i])
  {
    var xs := init + [last];
    var r := rec[last.id := last];
    IdsSnoc(init, last);
    forall i | 0 <= i < |xs| && IsLastOfId(xs, i)
      ensures xs[i].id in r && r[xs[i].id] == xs[i]
    {
      if i < |init| {
        assert xs[|xs| - 1] == last;
        assert xs[i] == init[i] && last.id != init[i].id;
        assert IsLastOfId(init, i) by {
          forall j | i < j < |init| ensures init[j].id != init[i].id {
            assert xs[j] == init[j];
          }
        }
      }
    }
  }

  /** `store.put(x)` for every `x` of `xs`, in order: a later record with the
      same id overwrites an earlier one. */
  function PutAll(db: Store, xs: seq<Item>): (r: Store)
    ensures r.Keys == db.Keys + Ids(xs)
    ensures forall k :: k in db && k !in Ids(xs) ==> r[k] == db[k]
    ensures forall i :: 0 <= i < |xs| && IsLastOfId(xs, i) ==> r[xs[i].id] == xs[i]
    decreases |xs|
  {
    if xs == [] then db
    else
      var init := xs[..|xs| - 1];
      var last := xs[|xs| - 1];
      assert xs == init + [last];
      var rec := PutAll(db, init);
      PutStep(db, rec, init, last);
      rec[last.id := last]
  }

  /** How the save's requests end. */
  datatype SaveOutcome =
    | Committed     // open, clear, puts and commit all succeed
    | OpenFailed    // `indexedDB.open` errors before any request is made
    | Aborted       // a request errors and the transaction rolls back

  /** How the promise `saveInventory` returns settles. */
  datatype Settled = Resolved | Rejected | NeverSettles

  datatype SaveResult = SaveResult(store: Store, settled: Settled)

  /** `saveInventory`: clear, then put every record, in one transaction.
      The transaction is all-or-nothing: after a commit the store holds
      exactly the given records keyed by id, last put winning; otherwise it
      is unchanged. A failed open rejects; an aborted transaction leaves the
      promise unsettled, because only success handlers are attached. */
  function SaveInventory(db: Store, items: seq<Item>, o: SaveOutcome): (r: SaveResult)
    ensures o.Committed? ==> r.settled == Resolved && r.store.Keys == Ids(items)
    ensures o.Committed? ==> forall i :: 0 <= i < |items| && IsLastOfId(items, i) ==> r.store[items[i].id] == items[i]
    ensures o.OpenFailed? ==> r == SaveResult(db, Rejected)
    ensures o.Aborted? ==> r == SaveResult(db, NeverSettles)
  {
    match o
    case Committed => SaveResult(PutAll(map[], items), Resolved)
    case OpenFailed => SaveResult(db, Rejected)
    case Aborted => SaveResult(db, NeverSettles)
  }

  /** A committed save does not depend on what was stored before, so saving
      the same list twice is saving it once. */
  lemma SaveIdempotent(db: Store, other: Store, items: seq<Item>)
    ensures SaveInventory(db, items, Committed) == SaveInventory(other, items, Committed)
    ensures SaveInventory(SaveInventory(db, items, Committed).store, items, Committed)
         == SaveInventory(db, items, Committed)
  {
  }

  /** Every stored record is the last record of the saved list with its id. */
  lemma {:induction false} StoredAreLastOfId(db: Store, xs: seq<Item>, k: string)
    requires k in Ids(xs)
    ensures exists i :: 0 <= i < |xs| && IsLastOfId(xs, i) && PutAll(db, xs)[k] == xs[i]
    decreases |xs|
  {
    var init := xs[..|xs| - 1];
    var last := xs[|xs| - 1];
    assert xs == init + [last];
    if last.id == k {
      assert IsLastOfId(xs, |xs| - 1);
    } else {
      assert k in Ids(init);
      StoredAreLastOfId(db, init, k);
      var i :| 0 <= i < |init| && IsLastOfId(init, i) && PutAll(db, init)[k] == init[i];
      assert xs[i] == init[i];
      assert IsLastOfId(xs, i);
    }
  }

  /** How the load's requests end. */
  datatype LoadOutcome =
    | Loaded          // `getAll` succeeds
    | OpenFailed      // opening the database throws, caught
    | RequestFailed   // the `getAll` request errors

  /** Reading one more stored record keeps the load loop's invariant. */
  lemma LoadStep(db: Store, xs: seq<Item>, rest: set<string>, k: string)
    requires rest <= db.Keys && k in rest
    requires Ids(xs) == db.Keys - rest
    requires forall i :: 0 <= i < |xs| ==> xs[i].id in db && db[xs[i].id] == xs[i]
    requires DistinctIds(xs)
    ensures var next := xs + [db[k]];
            && Ids(next) == db.Keys - (rest - {k})
            && (forall i :: 0 <= i < |next| ==> next[i].id in db && db[next[i].id] == next[i])
            && DistinctIds(next)
  {
    var x := db[k];
    forall i | 0 <= i < |xs| ensures xs[i].id != k {
      assert xs[i] in xs;
    }
    IdsSnoc(xs, x);
    var next := xs + [x];
    forall i, j | 0 <= i < j < |next| ensures next[i].id != next[j].id {
      if j < |xs| {
        assert next[i] == xs[i] && next[j] == xs[j];
      } else {
        assert next[i] == xs[i] && next[j] == x;
      }
    }
  }

  /** `loadInventory`: every stored record, each id once, in an order the
      model leaves open; `[]` whenever the open or the request fails. */
  method LoadInventory(db: Store, o: LoadOutcome) returns (xs: seq<Item>)
    ensures !o.Loaded? ==> xs == []
    ensures o.Loaded? ==> Ids(xs) == db.Keys && |xs| == |db|
    ensures o.Loaded? ==> forall i :: 0 <= i < |xs| ==> xs[i].id in db && db[xs[i].id] == xs[i]
    ensures o.Loaded? ==> DistinctIds(xs)
  {
    xs := [];
    if !o.Loaded? {
      return;
    }
    var rest := db.Keys;
    while rest != {}
      invariant rest <= db.Keys
      invariant Ids(xs) == db.Keys - rest
      invariant forall i :: 0 <= i < |xs| ==> xs[i].id in db && db[xs[i].id] == xs[i]
      invariant DistinctIds(xs)
      decreases rest
    {
      var k :| k in rest;
      var next := xs + [db[k]];
      LoadStep(db, xs, rest, k);
      xs := next;
      rest := rest - {k};
    }
    DistinctIdsCount(xs);
    assert Ids(xs) == db.Keys;
    assert |db.Keys| == |db|;
  }

  /** A committed save followed by a successful load: the records read back
      are exactly the last record of each id in the saved list, and when the
      ids were distinct, exactly the saved records, none lost or repeated. */
  method SaveThenLoad(db: Store, items: seq<Item>) returns (loaded: seq<Item>)
    ensures forall y :: y in loaded <==>
              exists i :: 0 <= i < |items| && IsLastOfId(items, i) && items[i] == y
    ensures DistinctIds(items) ==> |loaded| == |items|
    ensures DistinctIds(items) ==> forall y :: y in loaded <==> y in items
  {
    var saved := SaveInventory(db, items, Committed);
    loaded := LoadInventory(saved.store, Loaded);
    var s := saved.store;
    forall y | y in loaded
      ensures exists i :: 0 <= i < |items| && IsLastOfId(items, i) && items[i] == y
    {
      StoredAreLastOfId(map[], items, y.id);
    }
    forall i | 0 <= i < |items| && IsLastOfId(items, i)
      ensures items[i] in loaded
    {
      var k := items[i].id;
      assert k in Ids(loaded);
      var y :| y in loaded && y.id == k;
    }
    if DistinctIds(items) {
      DistinctIdsCount(items);
      forall i | 0 <= i < |items| ensures IsLastOfId(items, i) { }
    }
  }
}

=== FILE: native_app.dfy ===
/** The catalog logic of the native screen: mapping a photo's detections to
    a pending batch under review, saving the batch in front of the catalog,
    purging the selected record and the name/category filter. Every change of
    the catalog is written through to the device store. */
module NativeApp {
  import opened Wrappers
  import opened Text
  import opened Types
  import opened Catalog
  import NativeStore

  const DefaultName: string := "Object"
  const DefaultLocation: string := "Sector A"

  /** One detection as a pending record: `id` is the random base-36 id and
      `date` the locale date string read while building it, `uri` the photo. */
  function MapDetection(d: Detection, id: string, date: string, uri: string): (it: Item)
    ensures it.id == id && it.dateAdded == date
    ensures it.name == OrElse(d.name, DefaultName) && it.name != ""
    ensures it.brand == Some(OrElse(d.brand, ""))
    ensures it.description == OrElse(d.description, "")
    ensures it.category == OrElse(d.category, CategoryName(Other)) && it.category != ""
    ensures Truthy(d.category) ==> it.category == d.category.value
    ensures it.storageLocation == OrElse(d.storageLocation, DefaultLocation) && it.storageLocation != ""
    ensures d.price.None? ==> it.price == Some(0.0)
    ensures d.price.Some? ==> it.price == d.price
    ensures it.imageUrl == Some(uri)
    ensures it.isDuplicate.None? && it.color.None? && it.size.None?
    ensures it.expiryDate.None? && it.datePurchased.None?
  {
    Item(
      id := id,
      name := OrElse(d.name, DefaultName),
      description := OrElse(d.description, ""),
      category := OrElse(d.category, "Other"),
      storageLocation := OrElse(d.storageLocation, DefaultLocation),
      dateAdded := date,
      expiryDate := None,
      datePurchased := None,
      // `d.price || 0`: undefined and 0 are both falsy
      price := Some(if d.price.Some? && d.price.value != 0.0 then d.price.value else 0.0),
      imageUrl := Some(uri),
      isDuplicate := None,
      color := None,
      size := None,
      brand := Some(OrElse(d.brand, "")))
  }

  /** `detected.map(...)`: one pending record per detection, in order. */
  function MapDetections(ds: seq<Detection>, ids: nat -> string, dates: nat -> string, uri: string): (r: seq<Item>)
    ensures |r| == |ds|
    ensures forall k :: 0 <= k < |ds| ==> r[k] == MapDetection(ds[k], ids(k), dates(k), uri)
    ensures forall k :: 0 <= k < |ds| ==> r[k].price.Some? && r[k].brand.Some? && r[k].isDuplicate.None?
  {
    seq(|ds|, k requires 0 <= k < |ds| => MapDetection(ds[k], ids(k), dates(k), uri))
  }

  /** The native screen state the handlers below change. */
  datatype Screen = Screen(
    items: seq<Item>,
    pending: seq<Item>,
    reviewPhoto: Option<string>,
    isReviewing: bool,
    isAdding: bool,
    isLoading: bool,
    selected: Option<Item>)

  /** `processInventoryPhoto` once the analysis settles. A rejection is
      caught: nothing but the spinner changes and review is not entered. A
      resolved analysis, even an empty one, opens review on the mapped batch. */
  function ProcessInventoryPhoto(sc: Screen, analysis: Attempt<seq<Detection>>, ids: nat -> string,
                                 dates: nat -> string, uri: string): (r: Screen)
    ensures !r.isLoading && r.items == sc.items && r.selected == sc.selected
    ensures analysis.Threw? ==> r == sc.(isLoading := false)
    ensures analysis.Done? ==> r.isReviewing && !r.isAdding && r.reviewPhoto == Some(uri)
    ensures analysis.Done? ==> |r.pending| == |analysis.value|
    ensures analysis.Done? ==> forall k :: 0 <= k < |r.pending| ==>
              r.pending[k] == MapDetection(analysis.value[k], ids(k), dates(k), uri)
    ensures analysis == Done([]) ==> r.isReviewing && r.pending == []
  {
    match analysis
    case Threw => sc.(isLoading := false)
    case Done(ds) =>
      sc.(pending := MapDetections(ds, ids, dates, uri), reviewPhoto := Some(uri),
          isReviewing := true, isAdding := false, isLoading := false)
  }

  /** A screen together with the device store it writes through to. */
  datatype Synced = Synced(screen: Screen, slot: NativeStore.Slot)

  /** `saveBatch`: the batch goes in front of the catalog, both in their own
      order; exactly that list is persisted (a failed write is swallowed);
      review closes and the batch is emptied. */
  function SaveBatch(sc: Screen, slot: NativeStore.Slot, io: NativeStore.Io): (r: Synced)
    ensures r.screen.items == sc.pending + sc.items
    ensures r.screen.items[..|sc.pending|] == sc.pending && r.screen.items[|sc.pending|..] == sc.items
    ensures r.screen.pending == [] && !r.screen.isReviewing
    ensures r.screen.(items := sc.items, pending := sc.pending, isReviewing := sc.isReviewing) == sc
    ensures io.Ok? ==> NativeStore.LoadInventory(r.slot, NativeStore.Ok) == r.screen.items
    ensures io.Failed? ==> r.slot == slot
  {
    var updated := sc.pending + sc.items;
    Synced(sc.(items := updated, isReviewing := false, pending := []),
           NativeStore.SaveInventory(slot, updated, io))
  }

  /** The delete button of the detail view, shown only while a record is
      selected: keep every record with another id, persist that list, and
      close the view. */
  function PurgeSelected(sc: Screen, slot: NativeStore.Slot, io: NativeStore.Io): (r: Synced)
    requires sc.selected.Some?
    ensures forall x :: x in r.screen.items <==> x in sc.items && x.id != sc.selected.value.id
    ensures forall x: Item :: x.id != sc.selected.value.id ==> multiset(r.screen.items)[x] == multiset(sc.items)[x]
    ensures IsSubsequence(r.screen.items, sc.items)
    ensures r.screen.selected.None? && r.screen.pending == sc.pending
    ensures r.screen.(items := sc.items, selected := sc.selected) == sc
    ensures io.Ok? ==> NativeStore.LoadInventory(r.slot, NativeStore.Ok) == r.screen.items
    ensures io.Failed? ==> r.slot == slot
  {
    var updated := RemoveId(sc.items, sc.selected.value.id);
    Synced(sc.(items := updated, selected := None), NativeStore.SaveInventory(slot, updated, io))
  }

  /** The name-and-category test of `filteredItems`; the description is not
      searched. */
  predicate Matches(item: Item, query: string, selected: string) {
    Contains(Lower(item.name), Lower(query)) && (selected == "All" || item.category == selected)
  }

  /** `filteredItems`: the records passing the test, in catalog order. */
  function FilteredItems(items: seq<Item>, query: string, selected: string): (r: seq<Item>)
    ensures forall x :: x in r <==> x in items && Matches(x, query, selected)
    ensures forall x :: multiset(r)[x] == if Matches(x, query, selected) then multiset(items)[x] else 0
    ensures forall x :: x in r ==> Contains(Lower(x.name), Lower(query))
    ensures IsSubsequence(r, items)
  {
    KeepContents(items, (x: Item) => Matches(x, query, selected));
    Keep(items, (x: Item) => Matches(x, query, selected))
  }
}

=== FILE: native_store.dfy ===
/** The device store of the native screen: the whole catalog serialised as
    one JSON value under a single key. Serialisation is assumed to round-trip
    records, so a slot holds either a readable list, nothing, or text that no
    longer parses. Every call catches its own failure. */
module NativeStore {
  import opened Types

  /** What is stored under the key. */
  datatype Slot = Absent | Holds(items: seq<Item>) | Unreadable

  /** Whether one storage call (with its serialisation) succeeded. */
  datatype Io = Ok | Failed

  /** `saveInventory`: replace the value under the key; a failed write is
      swallowed and leaves the slot as it was. */
  function SaveInventory(s: Slot, items: seq<Item>, io: Io): (r: Slot)
    ensures io.Ok? ==> LoadInventory(r, Ok) == items
    ensures io.Failed? ==> r == s
  {
    if io.Ok? then Holds(items) else s
  }

  /** `loadInventory`: the stored list, or `[]` when the key is absent, the
      read fails or the text does not parse. Never throws. */
  function LoadInventory(s: Slot, io: Io): (r: seq<Item>)
    ensures io.Failed? || s.Absent? || s.Unreadable? ==> r == []
    ensures io.Ok? && s.Holds? ==> r == s.items
    ensures r != [] ==> s == Holds(r)
  {
    if io.Failed? then []
    else
      match s
      case Absent => []
      case Unreadable => []
      case Holds(xs) => xs
  }

  /** `clearAllData`: remove the key; a failure is swallowed. */
  function ClearAllData(s: Slot, io: Io): (r: Slot)
    ensures io.Ok? ==> forall read :: LoadInventory(r, read) == []
    ensures io.Failed? ==> r == s
  {
    if io.Ok? then Absent else s
  }

  /** A save is a full replace: the second of two saves decides what loads. */
  lemma SaveReplaces(s: Slot, xs: seq<Item>, ys: seq<Item>)
    ensures SaveInventory(SaveInventory(s, xs, Ok), ys, Ok) == SaveInventory(s, ys, Ok)
    ensures LoadInventory(SaveInventory(SaveInventory(s, xs, Ok), ys, Ok), Ok) == ys
  {
  }

  /** A failed save is invisible to every later load. */
  lemma FailedSaveInvisible(s: Slot, xs: seq<Item>, read: Io)
    ensures LoadInventory(SaveInventory(s, xs, Failed), read) == LoadInventory(s, read)
  {
  }
}

=== FILE: text.dfy ===
/** String helpers with the JavaScript meaning the screens rely on:
    `toLowerCase`, `includes` and `Array.prototype.join`. */
module Text {

  /** ASCII case folding of one character; every other character is kept. */
  function LowerChar(c: char): char {
    if 'A' <= c <= 'Z' then (c as int + 32) as char else c
  }

  /** `s.toLowerCase()` restricted to ASCII letters. */
  function Lower(s: string): (r: string)
    ensures |r| == |s|
    ensures forall i :: 0 <= i < |s| ==> r[i] == LowerChar(s[i])
  {
    if s == [] then [] else [LowerChar(s[0])] + Lower(s[1..])
  }

  /** Lower-casing a second time changes nothing, and no upper-case ASCII
      letter survives it. */
  lemma LowerIdempotent(s: string)
    ensures Lower(Lower(s)) == Lower(s)
    ensures forall i :: 0 <= i < |s| ==> !('A' <= Lower(s)[i] <= 'Z')
  {
    assert forall i :: 0 <= i < |s| ==> LowerChar(LowerChar(s[i])) == LowerChar(s[i]);
  }

  /** A string without upper-case ASCII letters is its own lower case. */
  lemma LowerOfLowercase(s: string)
    requires forall i :: 0 <= i < |s| ==> !('A' <= s[i] <= 'Z')
    ensures Lower(s) == s
  {
  }

  /** `p` is a prefix of `s`. */
  predicate IsPrefix(p: string, s: string) {
    |p| <= |s| && s[..|p|] == p
  }

  /** `s.includes(t)`: some suffix of `s` starts with `t`. */
  predicate Contains(s: string, t: string)
    ensures t == [] ==> Contains(s, t)
    ensures IsPrefix(t, s) ==> Contains(s, t)
    ensures Contains(s, t) ==> |t| <= |s|
    decreases |s|
  {
    IsPrefix(t, s) || (|s| > 0 && Contains(s[1..], t))
  }

  /** `s` holds `t` at position `i`. */
  ghost predicate OccursAt(s: string, t: string, i: int) {
    0 <= i && i + |t| <= |s| && s[i..i + |t|] == t
  }

  /** The scanning definition of `Contains` agrees with the positional one,
      in both directions. */
  lemma {:induction false} ContainsIffOccurs(s: string, t: string)
    ensures Contains(s, t) <==> exists i :: OccursAt(s, t, i)
    decreases |s|
  {
    if |s| > 0 {
      ContainsIffOccurs(s[1..], t);
    }
    if Contains(s, t) {
      if IsPrefix(t, s) {
        assert OccursAt(s, t, 0);
      } else {
        var i :| OccursAt(s[1..], t, i);
        assert s[1..][i..i + |t|] == s[i + 1..i + 1 + |t|];
        assert OccursAt(s, t, i + 1);
      }
    }
    if exists i :: OccursAt(s, t, i) {
      var i :| OccursAt(s, t, i);
      if i == 0 {
        assert IsPrefix(t, s);
      } else {
        assert s[1..][i - 1..i - 1 + |t|] == s[i..i + |t|];
        assert OccursAt(s[1..], t, i - 1);
      }
    }
  }

  /** `parts.join(sep)`. */
  function Join(parts: seq<string>, sep: string): (r: string)
    ensures parts == [] ==> r == ""
    ensures |parts| == 1 ==> r == parts[0]
    ensures |parts| > 1 ==> IsPrefix(parts[0] + sep, r)
  {
    if |parts| == 0 then ""
    else if |parts| == 1 then parts[0]
    else parts[0] + sep + Join(parts[1..], sep)
  }

  /** Joining two non-empty lists is joining each and gluing with `sep`. */
  lemma {:induction false} JoinAppend(a: seq<string>, b: seq<string>, sep: string)
    requires |a| > 0 && |b| > 0
    ensures Join(a + b, sep) == Join(a, sep) + sep + Join(b, sep)
    decreases |a|
  {
    if |a| == 1 {
      assert a + b == [a[0]] + b;
      assert (a + b)[1..] == b;
    } else {
      assert (a + b)[1..] == a[1..] + b;
      JoinAppend(a[1..], b, sep);
    }
  }
}

=== FILE: types.dfy ===
/** The records of the catalog: `InventoryItem`, `Category` and
    `ChatMessage`, plus the loosely-typed detection the AI service hands back. */
module Types {
  import opened Wrappers

  /** The closed set of categories the screens offer as filters. */
  datatype Category = Food | Clothes | Gym | Tools | Electronics | Other

  /** The string value of each enum member. */
  function CategoryName(c: Category): string {
    match c
    case Food => "Food"
    case Clothes => "Clothes"
    case Gym => "Gym"
    case Tools => "Tools"
    case Electronics => "Electronics"
    case Other => "Other"
  }

  /** `Object.values(Category)`, in declaration order. */
  const AllCategories: seq<Category> := [Food, Clothes, Gym, Tools, Electronics, Other]

  /** The enum member whose value is `s`, if there is one. */
  function CategoryOf(s: string): (r: Option<Category>)
    ensures r.Some? ==> CategoryName(r.value) == s
    ensures forall c :: CategoryName(c) == s ==> r == Some(c)
  {
    if s == "Food" then Some(Food)
    else if s == "Clothes" then Some(Clothes)
    else if s == "Gym" then Some(Gym)
    else if s == "Tools" then Some(Tools)
    else if s == "Electronics" then Some(Electronics)
    else if s == "Other" then Some(Other)
    else None
  }

  /** The enum has exactly six members with six distinct values, and the
      filter sentinel 'All' is not one of them. */
  lemma CategoryValuesDistinct()
    ensures |AllCategories| == 6
    ensures forall c: Category :: c in AllCategories
    ensures forall i, j :: 0 <= i < j < |AllCategories| ==>
              CategoryName(AllCategories[i]) != CategoryName(AllCategories[j])
    ensures CategoryOf("All") == None
  {
    forall c: Category ensures c in AllCategories {
      match c
      case Food => assert AllCategories[0] == c;
      case Clothes => assert AllCategories[1] == c;
      case Gym => assert AllCategories[2] == c;
      case Tools => assert AllCategories[3] == c;
      case Electronics => assert AllCategories[4] == c;
      case Other => assert AllCategories[5] == c;
    }
  }

  /** One catalog record. The six required fields are plain values; every
      optional field is an `Option`, so `isDuplicate` has the three states
      absent, true and false. `category` is a free string, not a `Category`. */
  datatype Item = Item(
    id: string,
    name: string,
    description: string,
    category: string,
    storageLocation: string,
    dateAdded: string,
    expiryDate: Option<string>,
    datePurchased: Option<string>,
    price: Option<real>,
    imageUrl: Option<string>,
    isDuplicate: Option<bool>,
    color: Option<string>,
    size: Option<string>,
    brand: Option<string>)

  /** The ids present in a list of records. */
  function Ids(xs: seq<Item>): set<string> {
    set x | x in xs :: x.id
  }

  /** No two records of the list share an id. */
  predicate DistinctIds(xs: seq<Item>) {
    forall i, j :: 0 <= i < j < |xs| ==> xs[i].id != xs[j].id
  }

  /** Prepending a record adds exactly its id. */
  lemma IdsCons(x: Item, tail: seq<Item>)
    ensures Ids([x] + tail) == {x.id} + Ids(tail)
  {
    assert forall y :: y in [x] + tail <==> y == x || y in tail;
  }

  /** Appending a record adds exactly its id. */
  lemma IdsSnoc(xs: seq<Item>, x: Item)
    ensures Ids(xs + [x]) == Ids(xs) + {x.id}
  {
    assert forall y :: y in xs + [x] <==> y in xs || y == x;
  }

  /** A list with pairwise distinct ids has as many ids as records. */
  lemma {:induction false} DistinctIdsCount(xs: seq<Item>)
    requires DistinctIds(xs)
    ensures |Ids(xs)| == |xs|
  {
    if xs != [] {
      var x := xs[0];
      var tail := xs[1..];
      assert xs == [x] + tail;
      assert DistinctIds(tail) by {
        forall i, j | 0 <= i < j < |tail| ensures tail[i].id != tail[j].id {
          assert tail[i] == xs[i + 1] && tail[j] == xs[j + 1];
        }
      }
      DistinctIdsCount(tail);
      IdsCons(x, tail);
      assert x.id !in Ids(tail) by {
        forall y | y in tail ensures y.id != x.id {
          var k :| 0 <= k < |tail| && tail[k] == y;
          assert xs[k + 1] == y;
        }
      }
    }
  }

  /** One element of the array `JSON.parse` returns for a photo analysis,
      typed `Partial<InventoryItem>`: every field may be missing. Only the
      fields some screen reads are kept, together with `estimatedPrice`, the
      price key the response schema asks the model for. */
  datatype Detection = Detection(
    name: Option<string>,
    description: Option<string>,
    category: Option<string>,
    storageLocation: Option<string>,
    price: Option<real>,
    brand: Option<string>,
    estimatedPrice: Option<real>)

  /** A detection whose keys are those of the response schema: `name` and
      `category` present, and neither `price` nor `brand`, which the schema
      does not declare. */
  predicate FollowsResponseSchema(d: Detection) {
    d.name.Some? && d.category.Some? && d.price.None? && d.brand.None?
  }

  /** A JavaScript string operand of `||` is truthy when present and not empty. */
  predicate Truthy(o: Option<string>) {
    o.Some? && o.value != ""
  }

  /** `o || fallback` for an optional string. */
  function OrElse(o: Option<string>, fallback: string): (r: string)
    ensures Truthy(o) ==> r == o.value
    ensures !Truthy(o) ==> r == fallback
  {
    match o
    case Some(s) => if s != "" then s else fallback
    case None => fallback
  }

  /** Who wrote a chat message. */
  datatype Role = User | Assistant

  /** The string literal of each role. */
  function RoleName(r: Role): string {
    match r
    case User => "user"
    case Assistant => "assistant"
  }

  /** The role whose literal is `s`, if any: exactly 'user' and 'assistant'. */
  function RoleOf(s: string): (r: Option<Role>)
    ensures r.Some? ==> RoleName(r.value) == s
    ensures forall role :: RoleName(role) == s ==> r == Some(role)
    ensures r.Some? <==> s == "user" || s == "assistant"
  {
    if s == "user" then Some(User)
    else if s == "assistant" then Some(Assistant)
    else None
  }

  datatype ChatMessage = ChatMessage(role: Role, content: string)
}

=== FILE: variants.dfy ===
/** How the web and native screens differ on the same inputs. */
module Variants {
  import opened Wrappers
  import opened Text
  import opened Types
  import opened Catalog
  import WebApp
  import NativeApp

  /** On both screens an empty query under 'All' shows the whole catalog. */
  lemma EmptyQueryShowsAll(items: seq<Item>)
    ensures WebApp.FilteredItems(items, "", "All") == items
    ensures NativeApp.FilteredItems(items, "", "All") == items
  {
    forall x | x in items ensures WebApp.Matches(x, "", "All") && NativeApp.Matches(x, "", "All") {
    }
    KeepAll(items, (x: Item) => WebApp.Matches(x, "", "All"));
    KeepAll(items, (x: Item) => NativeApp.Matches(x, "", "All"));
  }

  /** The native search is narrower: every record it shows, the web search
      shows for the same query and category. */
  lemma NativeFilterWithinWeb(items: seq<Item>, query: string, selected: string)
    ensures forall x :: x in NativeApp.FilteredItems(items, query, selected) ==>
              x in WebApp.FilteredItems(items, query, selected)
  {
  }

  /** The case of the query does not matter on either screen: searching for
      its lower-cased form shows the same records in the same order. */
  lemma QueryCaseInsensitive(items: seq<Item>, query: string, selected: string)
    ensures WebApp.FilteredItems(items, Lower(query), selected) == WebApp.FilteredItems(items, query, selected)
    ensures NativeApp.FilteredItems(items, Lower(query), selected) == NativeApp.FilteredItems(items, query, selected)
  {
    LowerIdempotent(query);
    KeepCongruent(items, (x: Item) => WebApp.Matches(x, Lower(query), selected),
                         (x: Item) => WebApp.Matches(x, query, selected));
    KeepCongruent(items, (x: Item) => NativeApp.Matches(x, Lower(query), selected),
                         (x: Item) => NativeApp.Matches(x, query, selected));
  }

  /** The query "dr" occurs in the description "drill". */
  lemma DrillInDescription()
    ensures Contains(Lower("drill"), Lower("dr"))
  {
    LowerOfLowercase("drill");
    LowerOfLowercase("dr");
    assert IsPrefix("dr", "drill");
  }

  /** The query "dr" does not occur in the name "Box". */
  lemma DrillNotInName()
    ensures !Contains(Lower("Box"), Lower("dr"))
  {
    LowerOfLowercase("dr");
    var n := Lower("Box");
    assert n[0] == 'b' && n[1] == 'o' && n[2] == 'x';
    ContainsIffOccurs(n, "dr");
  }

  /** A record that matches the query only through its description, and
      passes the category test, is shown by the web filter and hidden by the
      native one. */
  lemma DescriptionOnlyMatch(items: seq<Item>, it: Item, query: string, selected: string)
    requires it in items
    requires Contains(Lower(it.description), Lower(query))
    requires !Contains(Lower(it.name), Lower(query))
    requires selected == "All" || it.category == selected
    ensures it in WebApp.FilteredItems(items, query, selected)
    ensures it !in NativeApp.FilteredItems(items, query, selected)
  {
  }

  /** Such a record exists: "Box" described as a drill, searched for "dr". */
  lemma DescriptionOnlyExample()
    ensures var it := Item("1", "Box", "drill", "Tools", "Garage", "2024-01-01",
                           None, None, None, None, None, None, None, None);
            && WebApp.FilteredItems([it], "dr", "All") == [it]
            && NativeApp.FilteredItems([it], "dr", "All") == []
  {
    var it := Item("1", "Box", "drill", "Tools", "Garage", "2024-01-01",
                   None, None, None, None, None, None, None, None);
    DrillInDescription();
    DrillNotInName();
    DescriptionOnlyMatch([it], it, "dr", "All");
    assert WebApp.Matches(it, "dr", "All");
    assert !NativeApp.Matches(it, "dr", "All");
    KeepAll([it], (x: Item) => WebApp.Matches(x, "dr", "All"));
    assert NativeApp.FilteredItems([it], "dr", "All") == [];
  }

  /** The response schema asks for `estimatedPrice`, and both mappers read
      `price`: for every reply that follows the schema, the web record has no
      price and the native record has price 0, whatever price was estimated. */
  lemma EstimatedPriceNeverRead(d: Detection, id: string, date: string, image: string)
    requires FollowsResponseSchema(d)
    ensures WebApp.MapDetection(d, id, date, image).price == None
    ensures NativeApp.MapDetection(d, id, date, image).price == Some(0.0)
    ensures WebApp.MapDetection(d, id, date, image) == WebApp.MapDetection(d.(estimatedPrice := None), id, date, image)
  {
  }

  /** A category outside the enum is stored verbatim by both mappers. */
  lemma UnknownCategoryPassesThrough()
    ensures var d := Detection(Some("Pan"), None, Some("Kitchen"), None, None, None, None);
            && WebApp.MapDetection(d, "a", "today", "photo").category == "Kitchen"
            && NativeApp.MapDetection(d, "a", "today", "photo").category == "Kitchen"
            && CategoryOf("Kitchen") == None
  {
  }

  /** The same detection mapped by both screens agrees on id, date,
      description and category, and differs in the defaults the two screens
      choose for name, location, brand and price. */
  lemma MappersAgreeOnSharedFields(d: Detection, id: string, date: string, image: string)
    ensures var w := WebApp.MapDetection(d, id, date, image);
            var n := NativeApp.MapDetection(d, id, date, image);
            && w.(name := n.name, storageLocation := n.storageLocation, brand := n.brand, price := n.price) == n
            && (Truthy(d.name) <==> w.name == n.name)
            && (Truthy(d.storageLocation) <==> w.storageLocation == n.storageLocation)
  {
  }
}

=== FILE: web_app.dfy ===
/** The catalog logic of the web screen: mapping a photo's detections to
    records, flagging duplicates while unshifting them onto the catalog,
    deleting by id and the search/category filter. */
module WebApp {
  import opened Wrappers
  import opened Text
  import opened Types
  import opened Catalog

  const UnknownName: string := "Unknown Item"
  const DefaultLocation: string := "Main Storage"

  /** One detection as a record: `id` and `date` are the fresh UUID and the
      ISO date read while building it, `photo` the data URL of the photo. */
  function MapDetection(d: Detection, id: string, date: string, photo: string): (it: Item)
    ensures it.id == id && it.dateAdded == date
    ensures it.name == OrElse(d.name, UnknownName) && it.name != ""
    ensures it.description == OrElse(d.description, "")
    ensures it.category == OrElse(d.category, CategoryName(Other)) && it.category != ""
    ensures Truthy(d.category) ==> it.category == d.category.value
    ensures it.storageLocation == OrElse(d.storageLocation, DefaultLocation) && it.storageLocation != ""
    ensures it.price == d.price
    ensures it.imageUrl == Some(photo)
    ensures it.isDuplicate.None? && it.brand.None? && it.color.None? && it.size.None?
    ensures it.expiryDate.None? && it.datePurchased.None?
  {
    Item(
      id := id,
      name := OrElse(d.name, UnknownName),
      description := OrElse(d.description, ""),
      category := OrElse(d.category, "Other"),
      storageLocation := OrElse(d.storageLocation, DefaultLocation),
      dateAdded := date,
      expiryDate := None,
      datePurchased := None,
      price := d.price,
      imageUrl := Some(photo),
      isDuplicate := None,
      color := None,
      size := None,
      brand := None)
  }

  /** `detectedItems.map(...)`: one record per detection, in order; the
      k-th record takes the k-th fresh id and date. */
  function MapDetections(ds: seq<Detection>, ids: nat -> string, dates: nat -> string, photo: string): (r: seq<Item>)
    ensures |r| == |ds|
    ensures forall k :: 0 <= k < |ds| ==> r[k] == MapDetection(ds[k], ids(k), dates(k), photo)
    ensures forall k :: 0 <= k < |ds| ==> r[k].price == ds[k].price && r[k].brand.None?
  {
    seq(|ds|, k requires 0 <= k < |ds| => MapDetection(ds[k], ids(k), dates(k), photo))
  }

  /** The duplicate test: equal lower-cased names and identical categories. */
  predicate SameIdentity(a: Item, b: Item) {
    Lower(a.name) == Lower(b.name) && a.category == b.category
  }

  /** `list.some(existing => SameIdentity(existing, ni))`. */
  predicate HasMatch(list: seq<Item>, ni: Item)
    ensures ni in list ==> HasMatch(list, ni)
    ensures HasMatch(list, ni) ==> list != []
  {
    exists e :: e in list && SameIdentity(e, ni)
  }

  /** A new record as it is inserted: marked `isDuplicate: true` when `seen`
      has a match, otherwise left exactly as it was. */
  function Flag(ni: Item, seen: seq<Item>): (r: Item)
    ensures HasMatch(seen, ni) ==> r.isDuplicate == Some(true)
    ensures !HasMatch(seen, ni) ==> r == ni
    ensures r.(isDuplicate := ni.isDuplicate) == ni
  {
    if HasMatch(seen, ni) then ni.(isDuplicate := Some(true)) else ni
  }

  /** What the duplicate test looks at in a record. */
  function IdentityKey(e: Item): (string, string) {
    (Lower(e.name), e.category)
  }

  /** The identity keys of every record in the list. */
  function IdentityKeys(list: seq<Item>): set<(string, string)> {
    set e | e in list :: IdentityKey(e)
  }

  /** A match exists exactly when the new record's key is among the keys. */
  lemma HasMatchByKeys(list: seq<Item>, ni: Item)
    ensures HasMatch(list, ni) <==> IdentityKey(ni) in IdentityKeys(list)
  {
    if IdentityKey(ni) in IdentityKeys(list) {
      var e :| e in list && IdentityKey(e) == IdentityKey(ni);
      assert SameIdentity(e, ni);
    }
  }

  /** The duplicate check and merge: each new record, in batch order, is
      flagged against the running list (the catalog plus the batch records
      already inserted) and then unshifted onto it. The result is the
      reversed, flagged batch followed by the untouched catalog. */
  method MergeBatch(items: seq<Item>, newItems: seq<Item>) returns (updated: seq<Item>)
    ensures |updated| == |items| + |newItems|
    ensures updated[|newItems|..] == items
    ensures forall k :: 0 <= k < |newItems| ==>
              updated[|newItems| - 1 - k] == Flag(newItems[k], items + newItems[..k])
  {
    updated := items;
    var j := 0;
    while j < |newItems|
      invariant 0 <= j <= |newItems|
      invariant |updated| == |items| + j
      invariant updated[j..] == items
      invariant forall k :: 0 <= k < j ==> updated[j - 1 - k] == Flag(newItems[k], items + newItems[..k])
      invariant IdentityKeys(updated) == IdentityKeys(items + newItems[..j])
    {
      var ni := newItems[j];
      var isDuplicate := HasMatch(updated, ni);
      MergeStep(items, newItems, j, updated);
      if isDuplicate {
        ni := ni.(isDuplicate := Some(true));
      }
      updated := [ni] + updated;
      j := j + 1;
    }
  }

  /** One iteration of the merge: the running list answers the duplicate
      test as the catalog plus the earlier batch records would, and inserting
      the flagged record keeps the loop's invariant. */
  lemma MergeStep(items: seq<Item>, newItems: seq<Item>, j: nat, updated: seq<Item>)
    requires j < |newItems|
    requires |updated| == |items| + j && updated[j..] == items
    requires forall k :: 0 <= k < j ==> updated[j - 1 - k] == Flag(newItems[k], items + newItems[..k])
    requires IdentityKeys(updated) == IdentityKeys(items + newItems[..j])
    ensures HasMatch(updated, newItems[j]) == HasMatch(items + newItems[..j], newItems[j])
    ensures var next := [Flag(newItems[j], items + newItems[..j])] + updated;
            && next[j + 1..] == items
            && (forall k :: 0 <= k < j + 1 ==> next[j - k] == Flag(newItems[k], items + newItems[..k]))
            && IdentityKeys(next) == IdentityKeys(items + newItems[..j + 1])
  {
    var seen := items + newItems[..j];
    var ni := Flag(newItems[j], seen);
    var next := [ni] + updated;
    HasMatchByKeys(updated, newItems[j]);
    HasMatchByKeys(seen, newItems[j]);
    assert next[j + 1..] == updated[j..];
    forall k | 0 <= k < j + 1 ensures next[j - k] == Flag(newItems[k], items + newItems[..k]) {
      if k < j {
        assert next[j - k] == updated[j - 1 - k];
      }
    }
    assert IdentityKey(ni) == IdentityKey(newItems[j]);
    assert items + newItems[..j + 1] == seen + [newItems[j]];
    assert IdentityKeys(next) == {IdentityKey(ni)} + IdentityKeys(updated);
    assert IdentityKeys(seen + [newItems[j]]) == IdentityKeys(seen) + {IdentityKey(newItems[j])};
  }

  /** The web screen state the upload and delete handlers change. */
  datatype Screen = Screen(items: seq<Item>, isLoading: bool, isAdding: bool, selected: Option<Item>)

  /** `handleFileUpload` once the photo has been read, entered with the
      spinner on. `analysis` is the settled `analyzeStoragePhoto` call. A
      rejection is not caught: the catalog is unchanged and the spinner stays
      on. Otherwise every detection becomes a record, flagged and merged. */
  method HandleFileUpload(sc: Screen, analysis: Attempt<seq<Detection>>, ids: nat -> string,
                          dates: nat -> string, photo: string) returns (r: Screen)
    ensures analysis.Threw? ==> r == sc.(isLoading := true)
    ensures analysis.Done? ==> !r.isLoading && !r.isAdding && r.selected == sc.selected
    ensures analysis.Done? ==> |r.items| == |sc.items| + |analysis.value|
    ensures analysis.Done? ==> r.items[|analysis.value|..] == sc.items
    ensures analysis.Done? ==> forall k :: 0 <= k < |analysis.value| ==>
              var n := |analysis.value|;
              var mapped := MapDetections(analysis.value, ids, dates, photo);
              && r.items[n - 1 - k].(isDuplicate := None) == mapped[k]
              && r.items[n - 1 - k].isDuplicate ==
                   (if HasMatch(sc.items + mapped[..k], mapped[k]) then Some(true) else None)
  {
    if analysis.Threw? {
      return sc.(isLoading := true);
    }
    var newItems := MapDetections(analysis.value, ids, dates, photo);
    var updated := MergeBatch(sc.items, newItems);
    r := sc.(items := updated, isLoading := false, isAdding := false);
  }

  /** `deleteItem`: drop every record with this id and close the detail view. */
  function DeleteItem(sc: Screen, id: string): (r: Screen)
    ensures forall x :: x in r.items <==> x in sc.items && x.id != id
    ensures forall x: Item :: x.id != id ==> multiset(r.items)[x] == multiset(sc.items)[x]
    ensures IsSubsequence(r.items, sc.items)
    ensures r.selected.None? && r.isLoading == sc.isLoading && r.isAdding == sc.isAdding
  {
    sc.(items := RemoveId(sc.items, id), selected := None)
  }

  /** The search-and-category test of `filteredItems`. */
  predicate Matches(item: Item, query: string, selected: string) {
    (Contains(Lower(item.name), Lower(query)) || Contains(Lower(item.description), Lower(query)))
    && (selected == "All" || item.category == selected)
  }

  /** `filteredItems`: the records passing the test, in catalog order. */
  function FilteredItems(items: seq<Item>, query: string, selected: string): (r: seq<Item>)
    ensures forall x :: x in r <==> x in items && Matches(x, query, selected)
    ensures forall x :: multiset(r)[x] == if Matches(x, query, selected) then multiset(items)[x] else 0
    ensures forall x :: x in items && Contains(Lower(x.description), Lower(query)) && selected == "All" ==> x in r
    ensures IsSubsequence(r, items)
  {
    KeepContents(items, (x: Item) => Matches(x, query, selected));
    Keep(items, (x: Item) => Matches(x, query, selected))
  }
}

=== FILE: wrappers.dfy ===
/** Small failure-carrying datatypes shared by the whole model. */
module Wrappers {

  /** A value that may be absent: an optional field of a record, or a
      JavaScript value that is `undefined`/`null`. */
  datatype Option<+T> = None | Some(value: T)

  /** The settled state of an awaited call that may throw: `Done(v)` when the
      promise resolved with `v`, `Threw` when it rejected. */
  datatype Attempt<+T> = Done(value: T) | Threw
}
